=== FILE: README.md ===
# Publish endpoint of the PubNub Java client, in Dafny

This project models the request-preparation and response-decoding logic of the
client's `Publish` endpoint, which sends one message to one channel:

- **validation**: a request needs a message and a non-empty channel;
- **parameter assembly**: the query parameters `meta` (URL-encoded serialized
  metadata), `auth` (the configured auth key, if any), `uuid` (always) and
  `store` (`"0"` only when storing was explicitly switched off) are written into
  the caller's parameter map. Every other entry is left alone;
- **payload shaping**: the message is serialized to JSON. With a cipher key it
  is encrypted and every line feed is removed. It then travels either as the
  POST body or as a URL-encoded GET path segment. POST carries the cipher text,
  or the original object when nothing is encrypted. GET carries the quoted
  cipher text, or the plain JSON;
- **response decoding**: the time token is element 2 of the broker's
  acknowledgement list, read as a Java `long`.

The three library calls the endpoint makes are kept opaque. Jackson's
`writeValueAsString`, `Crypto.encrypt` and `PubnubUtil.urlEncode` are
function-valued fields of a `Codec` value that the caller passes in. A
serializer failure carries the exception's message. A Java `null` is
`Option.None`. The parameter map is a `map<string, string>`. The transport call
the endpoint would make is returned as a `Call` value: the keys, the channel, a
`Post(body)` or `Get(path)` shape, and the parameters.

Files:

- `wrappers.dfy`: `Option` and `Result`.
- `newlines.dfy`: removal of every `'\n'`, in two forms (functional and
  loop-based), with its algebra.
- `long_parse.dfy`: `Long.valueOf` as a decimal parse into the 64-bit range,
  plus its printing partner `Long.toString` and the round trip between them.
- `publish.dfy`: the data model and the operations of the endpoint.
- `publish_lemmas.dfy`: properties relating the parts of the endpoint, or
  several calls.

Two details of `Publish.java` worth noting:

- Line 73 removes every `'\n'` from the cipher text, not only trailing ones,
  and the model does the same.
- Line 107 checks neither the list length nor the parse result. Here the model
  is stricter: it returns a typed failure instead (see `CreateResponse` under
  "Left out").

## Model

| member | source | states |
|---|---|---|
| Publish.ValidateParams | src/main/java/com/pubnub/api/endpoints/pubsub/Publish.java:26-37 | a request is accepted iff it has a message and a non-null, non-empty channel (both directions) |
| Publish.WithMeta | src/main/java/com/pubnub/api/endpoints/pubsub/Publish.java:51-59 | fails iff metadata is present and does not serialize, carrying the serializer's reason; otherwise `meta` maps to the URL encoding of the serialized metadata, and without metadata the map is unchanged; no other key changes |
| Publish.WithIdentity | src/main/java/com/pubnub/api/endpoints/pubsub/Publish.java:61-65 | `auth` is the configured auth key when there is one and untouched otherwise; `uuid` is always the configured UUID; no other key changes |
| Publish.WithStoreFlag | src/main/java/com/pubnub/api/endpoints/pubsub/Publish.java:67-69 | `store` = `"0"` when `shouldStore` is explicitly false; an absent or true flag leaves the map identical; no other key changes |
| Publish.CipherPayload | src/main/java/com/pubnub/api/endpoints/pubsub/Publish.java:71-74 | with a cipher key the payload is the cipher text of the JSON with every line feed removed: it is newline-free and has the cipher text's characters minus the line feeds; without a key it is the JSON itself |
| Publish.Quote | src/main/java/com/pubnub/api/endpoints/pubsub/Publish.java:92-94 | the quoted string is two longer, starts and ends with `"`, and its inside is the original string |
| Publish.SelectShape | src/main/java/com/pubnub/api/endpoints/pubsub/Publish.java:78-101 | POST iff `usePOST` is explicitly true; a POST body is the cipher text when a key is configured, else the original object; a GET path is the URL encoding of the quoted cipher text, or of the plain JSON |
| Publish.DoWork | src/main/java/com/pubnub/api/endpoints/pubsub/Publish.java:40-102 | fails iff the message or the present metadata does not serialize, always as invalid arguments, with the message's reason first; on success it uses the configured keys and the request's channel, leaves every non-reserved parameter unchanged, and chooses POST iff `usePOST` is true |
| Publish.Prepare | src/main/java/com/pubnub/api/endpoints/pubsub/Publish.java:26-37 | an invalid request yields an invalid-arguments error; preparation fails iff the request is invalid or its message or present metadata does not serialize, so every valid, serializable request yields a call; a produced call always has a message and the request's non-empty channel |
| Publish.CreateResponse | src/main/java/com/pubnub/api/endpoints/pubsub/Publish.java:104-110 | succeeds iff there is a body of at least three elements whose third parses as a `long`; the result is that parsed value, within the 64-bit range; every failure is a malformed-response error |
| Newlines.StripNewlines | src/main/java/com/pubnub/api/endpoints/pubsub/Publish.java:73 | the result has no line feed, is no longer than the input, and holds the input's characters exactly, minus its line feeds (multiset) |
| Newlines.StripAppend | src/main/java/com/pubnub/api/endpoints/pubsub/Publish.java:73 | stripping distributes over concatenation, so the kept characters keep their order |
| Newlines.StripNewlineFree | src/main/java/com/pubnub/api/endpoints/pubsub/Publish.java:73 | a string with no line feed is left unchanged |
| Newlines.StripIdempotent | src/main/java/com/pubnub/api/endpoints/pubsub/Publish.java:73 | stripping twice equals stripping once |
| Newlines.RemoveNewlines | src/main/java/com/pubnub/api/endpoints/pubsub/Publish.java:73 | the character-by-character loop computes exactly the functional strip, and its result has no line feed |
| LongParse.ParseLong | src/main/java/com/pubnub/api/endpoints/pubsub/Publish.java:107 | an accepted string is non-empty and starts with a digit or a sign; its value fits in a signed 64-bit integer and has the sign the text shows |
| LongParse.NatToDecimalDigits | src/main/java/com/pubnub/api/endpoints/pubsub/Publish.java:107 | the decimal spelling of a natural number is a non-empty digit string whose value is that number |
| LongParse.NatToDecimalCanonical | src/main/java/com/pubnub/api/endpoints/pubsub/Publish.java:107 | the decimal spelling is non-empty and starts with `'0'` only for the number zero |
| LongParse.ParseLongRoundTrip | src/main/java/com/pubnub/api/endpoints/pubsub/Publish.java:107 | parsing the printed form of any 64-bit value gives that value back |
| LongParse.ParseLongDigits | src/main/java/com/pubnub/api/endpoints/pubsub/Publish.java:107 | a non-empty digit string, leading zeros allowed, parses to its digits' value when that is at most `MaxLong` and is rejected otherwise; with a leading `-` it parses to the negated value down to `MinLong` (so `"-0"` is 0) and is rejected below |
| LongParse.ParseLongRejectsOverflow | src/main/java/com/pubnub/api/endpoints/pubsub/Publish.java:107 | the spelling of any number above `MaxLong`, or the negated spelling of any number above 2^63, is rejected rather than wrapped |
| LongParse.ParseLongOnlyDigits | src/main/java/com/pubnub/api/endpoints/pubsub/Publish.java:107 | an accepted string is an optional `-` or `+` followed by at least one character, all of them decimal digits; anything with another character after the sign is rejected |
| LongParse.ParseLongPlusSign | src/main/java/com/pubnub/api/endpoints/pubsub/Publish.java:107 | a leading `+` before a digit string changes nothing |
| LongParse.ParseLongRejectsBareSign | src/main/java/com/pubnub/api/endpoints/pubsub/Publish.java:107 | the empty string and a lone `-` or `+` are rejected |
| PublishLemmas.DoWorkMetaParam | src/main/java/com/pubnub/api/endpoints/pubsub/Publish.java:51-55 | with metadata, `meta` is the URL-encoded serialized metadata; without, the caller's `meta` entry is untouched |
| PublishLemmas.DoWorkIdentityParams | src/main/java/com/pubnub/api/endpoints/pubsub/Publish.java:61-65 | `auth` is the configured key iff one is configured (else untouched); `uuid` is always the configured UUID |
| PublishLemmas.DoWorkStoreParam | src/main/java/com/pubnub/api/endpoints/pubsub/Publish.java:67-69 | `store` is `"0"` when storing is explicitly off; otherwise the caller's `store` entry is untouched |
| PublishLemmas.DoWorkMetaFailure | src/main/java/com/pubnub/api/endpoints/pubsub/Publish.java:51-58 | metadata that does not serialize fails the request with its reason even when the message serializes |
| PublishLemmas.DoWorkEncryptedPayload | src/main/java/com/pubnub/api/endpoints/pubsub/Publish.java:71-101 | with a cipher key, the POST body is the newline-free cipher text and the GET path is the URL encoding of that text in quotes |
| PublishLemmas.DoWorkPlainPayload | src/main/java/com/pubnub/api/endpoints/pubsub/Publish.java:78-101 | without a cipher key, the POST body is the original object and the GET path is the URL-encoded JSON, unquoted |
| PublishLemmas.ParamsIndependentOfShape | src/main/java/com/pubnub/api/endpoints/pubsub/Publish.java:61-101 | changing `usePOST` or the cipher key leaves the parameter map unchanged |
| PublishLemmas.PostAndGetCarrySameCipherText | src/main/java/com/pubnub/api/endpoints/pubsub/Publish.java:78-101 | with a cipher key, POST and GET of the same request carry the same newline-free cipher text, bare in the body and quoted then URL-encoded in the path |
| PublishLemmas.CallDependsOnlyOnCipherText | src/main/java/com/pubnub/api/endpoints/pubsub/Publish.java:71-101 | with a cipher key, two messages whose stripped cipher texts agree yield identical calls |
| PublishLemmas.InvalidRequestNeverDispatched | src/main/java/com/pubnub/api/endpoints/pubsub/Publish.java:27-37 | a missing message, or a missing or empty channel, yields an invalid-arguments error and no call |
| PublishLemmas.TimetokenRoundTrip | src/main/java/com/pubnub/api/endpoints/pubsub/Publish.java:107 | an acknowledgement whose third element is the printed form of any 64-bit value yields that value, whatever the other elements |
| PublishLemmas.ShortResponseRejected | src/main/java/com/pubnub/api/endpoints/pubsub/Publish.java:107 | an acknowledgement of fewer than three elements yields a malformed-response error |

## Left out

- Publish.CreateResponse: the code does not check for a missing body, a list of
  fewer than three elements or an unparseable token. It throws
  `NullPointerException`, `IndexOutOfBoundsException` or
  `NumberFormatException`. The model returns a typed `MalformedResponse` failure
  in those cases, so it is stricter than the code. The response body is modelled
  as the `toString` images of the list elements. So a JSON `null` at index 2 is
  not represented: `get(2).toString()` would throw `NullPointerException` there.
- LongParse.ParseLong: only ASCII digits are accepted. `Character.digit` also
  accepts other Unicode decimal digits; this is not modelled.
- Publish.DoWork: requires `ValidateParams`, because the base `Endpoint` class
  calls `validateParams` before `doWork`. `Endpoint` is not part of this model.
  The error `Prepare` returns for a failed validation is assumed to be an
  invalid-arguments error.
- Retrofit service creation and dispatch (`createRetrofit`, `publish`,
  `publishWithPost`): this is network I/O. The model returns the arguments of
  the chosen call instead.
- Jackson serialization, `Crypto` (AES and Base64) and `PubnubUtil.urlEncode`:
  foreign library code, kept as opaque function parameters. Their own failures
  are not modelled: a `PubnubException` from encryption, and the `null` that
  `urlEncode` returns when the encoding is unsupported.
- A `null` UUID in the configuration: the model's UUID is always a string.
- `getConnectTimeout`, `getRequestTimeout`, `getOperationType` and `getPubnub`
  are plain getters with nothing to state.
- The Lombok `@Builder` machinery: the request is an immutable datatype instead.

=== FILE: long_parse.dfy ===
/** Decimal text to and from Java's 64-bit `long`: `Long.valueOf(String)` (which
    delegates to `Long.parseLong(s, 10)`) and its printing partner `Long.toString`. */
module LongParse {
  import opened Wrappers

  const MinLong: int := -0x8000_0000_0000_0000
  const MaxLong: int := 0x7fff_ffff_ffff_ffff

  predicate InLongRange(n: int) {
    MinLong <= n <= MaxLong
  }

  predicate IsDigit(c: char) {
    '0' <= c <= '9'
  }

  predicate AllDigits(s: string) {
    forall i :: 0 <= i < |s| ==> IsDigit(s[i])
  }

  function DigitValue(c: char): nat
    requires IsDigit(c)
  {
    (c as int) - ('0' as int)
  }

  function DigitChar(d: nat): char
    requires d < 10
  {
    (('0' as int) + d) as char
  }

  /** The value of a string of decimal digits, most significant first; leading
      zeros are allowed. */
  function DigitsValue(s: string): nat
    requires AllDigits(s)
    decreases |s|
  {
    if |s| == 0 then 0 else 10 * DigitsValue(s[..|s| - 1]) + DigitValue(s[|s| - 1])
  }

  /** `Long.valueOf(s)`: an optional leading `'-'` or `'+'`, then at least one
      decimal digit, and a value that fits in a signed 64-bit integer; anything
      else is a `NumberFormatException`, here `None`. */
  function ParseLong(s: string): (r: Option<int>)
    ensures r.Some? ==> InLongRange(r.value)
    ensures r.Some? ==> |s| > 0 && (IsDigit(s[0]) || s[0] == '-' || s[0] == '+')
    ensures r.Some? && 0 < |s| && s[0] == '-' ==> r.value <= 0
    ensures r.Some? && 0 < |s| && s[0] != '-' ==> r.value >= 0
  {
    if |s| == 0 then None
    else
      var negative := s[0] == '-';
      var digits := if s[0] == '-' || s[0] == '+' then s[1..] else s;
      if |digits| == 0 || !AllDigits(digits) then None
      else
        var v: int := if negative then 0 - (DigitsValue(digits) as int) else DigitsValue(digits);
        if InLongRange(v) then Some(v) else None
  }

  /** The canonical decimal spelling of a natural number: digits only
      (`NatToDecimalDigits`) and no leading zero (`NatToDecimalCanonical`). */
  function NatToDecimal(n: nat): (s: string)
    decreases n
  {
    if n < 10 then [DigitChar(n)] else NatToDecimal(n / 10) + [DigitChar(n % 10)]
  }

  /** `Long.toString(n)`. */
  function LongToString(n: int): string
    requires InLongRange(n)
  {
    if n < 0 then "-" + NatToDecimal(-n) else NatToDecimal(n)
  }

  lemma {:induction false} NatToDecimalDigits(n: nat)
    ensures |NatToDecimal(n)| > 0
    ensures AllDigits(NatToDecimal(n))
    ensures DigitsValue(NatToDecimal(n)) == n
    decreases n
  {
    var s := NatToDecimal(n);
    if n < 10 {
      assert s[..|s| - 1] == [];
    } else {
      NatToDecimalDigits(n / 10);
      var p := NatToDecimal(n / 10);
      assert s == p + [DigitChar(n % 10)];
      assert s[..|s| - 1] == p;
      assert AllDigits(s) by {
        forall i | 0 <= i < |s| ensures IsDigit(s[i]) {
          if i < |p| { assert s[i] == p[i]; }
        }
      }
    }
  }

  /** The spelling has no leading zero: only the number zero starts with `'0'`. */
  lemma {:induction false} NatToDecimalCanonical(n: nat)
    ensures |NatToDecimal(n)| > 0 && (n > 0 ==> NatToDecimal(n)[0] != '0')
    decreases n
  {
    if n >= 10 {
      NatToDecimalCanonical(n / 10);
      assert NatToDecimal(n)[0] == NatToDecimal(n / 10)[0];
    }
  }

  /** Parsing what `Long.toString` prints gives back the same number, for every
      value of a Java `long`. */
  lemma ParseLongRoundTrip(n: int)
    requires InLongRange(n)
    ensures ParseLong(LongToString(n)) == Some(n)
  {
    if n < 0 {
      NatToDecimalDigits(-n);
      ParseLongDigits(NatToDecimal(-n));
    } else {
      NatToDecimalDigits(n);
      ParseLongDigits(NatToDecimal(n));
    }
  }

  /** The value of every spelling: an unsigned or `'-'`-signed digit string, leading
      zeros and `"-0"` included, reads as its digits' value, and is rejected exactly
      when that value leaves the 64-bit range. */
  lemma ParseLongDigits(d: string)
    requires 0 < |d| && AllDigits(d)
    ensures ParseLong(d) == (if DigitsValue(d) <= MaxLong then Some(DigitsValue(d) as int) else None)
    ensures ParseLong("-" + d) == (if DigitsValue(d) <= -MinLong then Some(-(DigitsValue(d) as int)) else None)
  {
    assert IsDigit(d[0]) && d[0] != '-' && d[0] != '+';
    var signed := "-" + d;
    assert signed[0] == '-' && signed[1..] == d;
  }

  /** Overflow is rejected, not wrapped: the decimal spelling of any number beyond
      `MaxLong`, or its negation below `MinLong`, does not parse. */
  lemma ParseLongRejectsOverflow(n: nat)
    ensures n > MaxLong ==> ParseLong(NatToDecimal(n)) == None
    ensures n > -MinLong ==> ParseLong("-" + NatToDecimal(n)) == None
  {
    NatToDecimalDigits(n);
    ParseLongDigits(NatToDecimal(n));
  }

  /** Whatever is accepted is an optional sign followed by nothing but decimal
      digits, at least one: text such as `"12a"` is rejected. */
  lemma ParseLongOnlyDigits(s: string)
    requires ParseLong(s).Some?
    ensures var d := if s[0] == '-' || s[0] == '+' then s[1..] else s;
            0 < |d| && AllDigits(d)
  {
  }

  /** The sign-less spelling of a value is accepted exactly like the one with a
      leading `'+'`. */
  lemma ParseLongPlusSign(d: string)
    requires 0 < |d| && IsDigit(d[0])
    ensures ParseLong("+" + d) == ParseLong(d)
  {
    assert ("+" + d)[1..] == d;
  }

  /** Edge cases of `ParseLongOnlyDigits`: a lone sign, and the empty string, are rejected. */
  lemma ParseLongRejectsBareSign()
    ensures ParseLong("") == None
    ensures ParseLong("-") == None
    ensures ParseLong("+") == None
  {
  }
}

=== FILE: newlines.dfy ===
/** Removal of every line-feed character from a string, as `String.replace("\n", "")`
    does to the cipher text before it is put on the wire. */
module Newlines {

  const LF: char := '\n'

  predicate NewlineFree(s: string) {
    forall i :: 0 <= i < |s| ==> s[i] != LF
  }

  /** The string `s` with every `'\n'` removed, wherever it occurs. */
  function StripNewlines(s: string): (r: string)
    ensures NewlineFree(r)
    ensures |r| <= |s|
    ensures multiset(r) == multiset(s)[LF := 0]
  {
    if |s| == 0 then []
    else
      assert s == [s[0]] + s[1..];
      (if s[0] == LF then [] else [s[0]]) + StripNewlines(s[1..])
  }

  /** Stripping distributes over concatenation: the kept characters of `a` come
      before the kept characters of `b`, so the order of the others is preserved. */
  lemma {:induction false} StripAppend(a: string, b: string)
    ensures StripNewlines(a + b) == StripNewlines(a) + StripNewlines(b)
    decreases |a|
  {
    if |a| == 0 {
      assert a + b == b;
    } else {
      assert (a + b)[1..] == a[1..] + b;
      StripAppend(a[1..], b);
    }
  }

  /** A string without line feeds is left exactly as it is. */
  lemma {:induction false} StripNewlineFree(s: string)
    requires NewlineFree(s)
    ensures StripNewlines(s) == s
    decreases |s|
  {
    if |s| > 0 {
      StripNewlineFree(s[1..]);
      assert s == [s[0]] + s[1..];
    }
  }

  /** Stripping twice changes nothing. */
  lemma StripIdempotent(s: string)
    ensures StripNewlines(StripNewlines(s)) == StripNewlines(s)
  {
    StripNewlineFree(StripNewlines(s));
  }

  /** An imperative formulation of `StripNewlines`, one character at a time. */
  method RemoveNewlines(s: string) returns (r: string)
    ensures r == StripNewlines(s)
    ensures NewlineFree(r)
  {
    r := [];
    var i := 0;
    while i < |s|
      invariant 0 <= i <= |s|
      invariant r == StripNewlines(s[..i])
    {
      assert s[..i + 1] == s[..i] + [s[i]];
      StripAppend(s[..i], [s[i]]);
      assert StripNewlines([s[i]]) == (if s[i] == LF then [] else [s[i]]);
      if s[i] != LF {
        r := r + [s[i]];
      }
      i := i + 1;
    }
    assert s[..i] == s;
  }
}

=== FILE: publish.dfy ===
/** The publish endpoint: validation of the request, assembly of the query
    parameters, shaping of the (optionally encrypted) payload into a GET path
    segment or a POST body, and decoding of the broker's acknowledgement.

    The three library calls the endpoint makes are not modelled; they are the
    fields of a `Codec` value handed in by the caller. A Java `null` is `None`. */
module Publish {
  import opened Wrappers
  import opened Newlines
  import opened LongParse

  /** An application object as the JSON serializer sees it. The endpoint never
      looks inside one; it only passes it to the serializer or the transport. */
  datatype Value =
    | Null
    | Bool(b: bool)
    | Number(n: int)
    | Text(s: string)
    | List(items: seq<Value>)
    | Object(fields: map<string, Value>)

  /** The read-only client configuration the endpoint consults. */
  datatype Configuration = Configuration(
    publishKey: string,
    subscribeKey: string,
    authKey: Option<string>,
    uuid: string,
    cipherKey: Option<string>)

  /** The builder-set fields of one publish call. */
  datatype PublishRequest = PublishRequest(
    message: Option<Value>,
    channel: Option<string>,
    shouldStore: Option<bool>,
    usePost: Option<bool>,
    meta: Option<Value>)

  /** The foreign calls: `ObjectMapper.writeValueAsString` (a failure carries the
      `JsonProcessingException` message), `new Crypto(key).encrypt(plaintext)`,
      and `PubnubUtil.urlEncode`. */
  datatype Codec = Codec(
    serialize: Value -> Result<string, string>,
    encrypt: (string, string) -> string,
    urlEncode: string -> string)

  /** What a POST request carries as its body: the cipher text, or the
      untouched application object. */
  datatype Body = CipherText(text: string) | Message(value: Value)

  /** The two request shapes: payload in the body, or payload as a path segment. */
  datatype Shape = Post(body: Body) | Get(path: string)

  /** The one transport call the endpoint issues, with all of its arguments. */
  datatype Call = Call(
    publishKey: string,
    subscribeKey: string,
    channel: string,
    shape: Shape,
    params: map<string, string>)

  datatype PublishError =
    | InvalidArguments(detail: string)
    | MalformedResponse(detail: string)

  /** A serializer failure, reported as the endpoint's invalid-arguments error. */
  function Invalid(reason: string): PublishError {
    InvalidArguments(reason)
  }

  /** The parameter names this endpoint writes; every other entry is the caller's. */
  const ReservedKeys: set<string> := {"meta", "auth", "uuid", "store"}

  /** `m` and `m'` agree on key `k`: both lack it, or both map it to the same value. */
  predicate SameEntry(m: map<string, string>, m': map<string, string>, k: string) {
    (k !in m && k !in m') || (k in m && k in m' && m[k] == m'[k])
  }

  // ---------------------------------------------------------------------------
  // Validation

  /** A request is acceptable exactly when it has a message and a non-empty channel. */
  function ValidateParams(req: PublishRequest): (ok: bool)
    ensures ok <==> req.message.Some? && req.channel.Some? && |req.channel.value| > 0
  {
    if req.message.None? then false
    else if req.channel.None? || |req.channel.value| == 0 then false
    else true
  }

  // ---------------------------------------------------------------------------
  // Parameter assembly

  /** Adds the serialized, URL-encoded metadata under `"meta"` when there is
      metadata; fails, leaving nothing behind, when it cannot be serialized. */
  function WithMeta(codec: Codec, meta: Option<Value>, params: map<string, string>)
    : (r: Result<map<string, string>, string>)
    ensures r.Failure? <==> meta.Some? && codec.serialize(meta.value).Failure?
    ensures r.Failure? ==> r.error == codec.serialize(meta.value).error
    ensures r.Success? && meta.Some? ==>
              "meta" in r.value && r.value["meta"] == codec.urlEncode(codec.serialize(meta.value).value)
    ensures r.Success? && meta.None? ==> r.value == params
    ensures r.Success? ==> r.value - {"meta"} == params - {"meta"}
  {
    match meta
    case None => Success(params)
    case Some(m) =>
      var json :- codec.serialize(m);
      Success(params["meta" := codec.urlEncode(json)])
  }

  /** Adds the client identity: `"auth"` only when an auth key is configured,
      `"uuid"` always. */
  function WithIdentity(cfg: Configuration, params: map<string, string>): (r: map<string, string>)
    ensures cfg.authKey.Some? ==> "auth" in r && r["auth"] == cfg.authKey.value
    ensures cfg.authKey.None? ==> SameEntry(r, params, "auth")
    ensures "uuid" in r && r["uuid"] == cfg.uuid
    ensures r - {"auth", "uuid"} == params - {"auth", "uuid"}
  {
    var withAuth := if cfg.authKey.Some? then params["auth" := cfg.authKey.value] else params;
    withAuth["uuid" := cfg.uuid]
  }

  /** Asks the broker not to keep the message (`"store"` = `"0"`) only when storing
      was explicitly switched off; an absent or true flag leaves the map alone. */
  function WithStoreFlag(shouldStore: Option<bool>, params: map<string, string>): (r: map<string, string>)
    ensures shouldStore == Some(false) ==> "store" in r && r["store"] == "0"
    ensures shouldStore != Some(false) ==> r == params
    ensures r - {"store"} == params - {"store"}
  {
    if shouldStore.Some? && !shouldStore.value then params["store" := "0"] else params
  }

  // ---------------------------------------------------------------------------
  // Payload shaping

  /** The message text that goes on the wire: with a cipher key, the cipher text
      of the serialized message with every line feed removed; without one, the
      serialized message itself. */
  function CipherPayload(cfg: Configuration, codec: Codec, json: string): (p: string)
    ensures cfg.cipherKey.Some? ==> NewlineFree(p)
    ensures cfg.cipherKey.Some? ==> p == StripNewlines(codec.encrypt(json, cfg.cipherKey.value))
    ensures cfg.cipherKey.Some? ==> multiset(p) == multiset(codec.encrypt(json, cfg.cipherKey.value))[LF := 0]
    ensures cfg.cipherKey.None? ==> p == json
  {
    match cfg.cipherKey
    case Some(key) => StripNewlines(codec.encrypt(json, key))
    case None => json
  }

  /** Wraps a string in double quotes; nothing inside it is escaped. */
  function Quote(s: string): (q: string)
    ensures |q| == |s| + 2 && q[0] == '"' && q[|q| - 1] == '"'
    ensures q[1..|q| - 1] == s
  {
    "\"" + s + "\""
  }

  /** Chooses the request shape. POST exactly when `usePost` is explicitly true;
      its body is the cipher text when encrypting and the original object
      otherwise. GET carries the URL-encoded payload, quoted first when it is
      cipher text. */
  function SelectShape(cfg: Configuration, codec: Codec, usePost: Option<bool>, message: Value, payload: string)
    : (s: Shape)
    ensures s.Post? <==> usePost == Some(true)
    ensures s.Post? && cfg.cipherKey.Some? ==> s.body == CipherText(payload)
    ensures s.Post? && cfg.cipherKey.None? ==> s.body == Message(message)
    ensures s.Get? && cfg.cipherKey.Some? ==> s.path == codec.urlEncode(Quote(payload))
    ensures s.Get? && cfg.cipherKey.None? ==> s.path == codec.urlEncode(payload)
  {
    if usePost.Some? && usePost.value then
      Post(if cfg.cipherKey.Some? then CipherText(payload) else Message(message))
    else
      Get(codec.urlEncode(if cfg.cipherKey.Some? then Quote(payload) else payload))
  }

  // ---------------------------------------------------------------------------
  // The request

  /** Builds the transport call for a validated request, updating the caller's
      parameter map `params`. Either serialization failing is an
      `InvalidArguments` error and no call is produced. */
  function DoWork(cfg: Configuration, codec: Codec, req: PublishRequest, params: map<string, string>)
    : (r: Result<Call, PublishError>)
    requires ValidateParams(req)
    ensures r.Failure? <==>
              || codec.serialize(req.message.value).Failure?
              || (req.meta.Some? && codec.serialize(req.meta.value).Failure?)
    ensures r.Failure? ==> r.error.InvalidArguments?
    ensures codec.serialize(req.message.value).Failure? ==>
              r == Failure(InvalidArguments(codec.serialize(req.message.value).error))
    ensures r.Success? ==>
              && r.value.channel == req.channel.value
              && r.value.publishKey == cfg.publishKey
              && r.value.subscribeKey == cfg.subscribeKey
    ensures r.Success? ==> r.value.params - ReservedKeys == params - ReservedKeys
    ensures r.Success? ==> (r.value.shape.Post? <==> req.usePost == Some(true))
  {
    var message := req.message.value;
    var json :- codec.serialize(message).MapFailure(Invalid);
    var withMeta :- WithMeta(codec, req.meta, params).MapFailure(Invalid);
    var assembled := WithStoreFlag(req.shouldStore, WithIdentity(cfg, withMeta));
    var payload := CipherPayload(cfg, codec, json);
    Success(Call(cfg.publishKey, cfg.subscribeKey, req.channel.value,
                 SelectShape(cfg, codec, req.usePost, message, payload), assembled))
  }

  /** The whole preparation step as the endpoint runs it: validation first, and
      only a valid request is turned into a call. */
  function Prepare(cfg: Configuration, codec: Codec, req: PublishRequest, params: map<string, string>)
    : (r: Result<Call, PublishError>)
    ensures !ValidateParams(req) ==> r.Failure? && r.error.InvalidArguments?
    ensures r.Failure? <==>
              || !ValidateParams(req)
              || codec.serialize(req.message.value).Failure?
              || (req.meta.Some? && codec.serialize(req.meta.value).Failure?)
    ensures r.Success? ==> req.message.Some? && req.channel.Some? && r.value.channel == req.channel.value && req.channel.value != ""
  {
    if !ValidateParams(req) then Failure(InvalidArguments("message or channel missing"))
    else DoWork(cfg, codec, req, params)
  }

  // ---------------------------------------------------------------------------
  // Response decoding

  /** The time token of the broker's acknowledgement `[status, description,
      timetoken, ...]`: the element at index 2, read as a Java `long`. `body` holds
      the `toString` images of the list elements; `None` is a missing body. */
  function CreateResponse(body: Option<seq<string>>): (r: Result<int, PublishError>)
    ensures r.Success? <==> body.Some? && |body.value| >= 3 && ParseLong(body.value[2]).Some?
    ensures r.Success? ==> InLongRange(r.value)
    ensures r.Success? ==> ParseLong(body.value[2]) == Some(r.value)
    ensures r.Failure? ==> r.error.MalformedResponse?
  {
    match body
    case None => Failure(MalformedResponse("no response body"))
    case Some(items) =>
      if |items| < 3 then Failure(MalformedResponse("fewer than three elements"))
      else
        match ParseLong(items[2])
        case None => Failure(MalformedResponse("time token is not a long"))
        case Some(t) => Success(t)
  }
}

=== FILE: publish_lemmas.dfy ===
/** Properties of the publish endpoint that relate its parts, or several calls,
    to one another. */
module PublishLemmas {
  import opened Wrappers
  import opened Newlines
  import opened LongParse
  import opened Publish

  /** `"meta"` carries the URL-encoded serialized metadata whenever there is
      metadata; without metadata the caller's entry, if any, is untouched. */
  lemma DoWorkMetaParam(cfg: Configuration, codec: Codec, req: PublishRequest, params: map<string, string>)
    requires ValidateParams(req)
    requires DoWork(cfg, codec, req, params).Success?
    ensures var p := DoWork(cfg, codec, req, params).value.params;
            req.meta.Some? ==>
              "meta" in p && p["meta"] == codec.urlEncode(codec.serialize(req.meta.value).value)
    ensures req.meta.None? ==> SameEntry(DoWork(cfg, codec, req, params).value.params, params, "meta")
  {
  }

  /** `"auth"` is the configured auth key exactly when one is configured (the
      caller's entry is untouched otherwise), and `"uuid"` is always the
      configured client identity. */
  lemma DoWorkIdentityParams(cfg: Configuration, codec: Codec, req: PublishRequest, params: map<string, string>)
    requires ValidateParams(req)
    requires DoWork(cfg, codec, req, params).Success?
    ensures var p := DoWork(cfg, codec, req, params).value.params;
            cfg.authKey.Some? ==> "auth" in p && p["auth"] == cfg.authKey.value
    ensures cfg.authKey.None? ==> SameEntry(DoWork(cfg, codec, req, params).value.params, params, "auth")
    ensures var p := DoWork(cfg, codec, req, params).value.params;
            "uuid" in p && p["uuid"] == cfg.uuid
  {
  }

  /** `"store"` = `"0"` exactly when storing was explicitly switched off;
      otherwise the caller's entry, if any, is untouched. */
  lemma DoWorkStoreParam(cfg: Configuration, codec: Codec, req: PublishRequest, params: map<string, string>)
    requires ValidateParams(req)
    requires DoWork(cfg, codec, req, params).Success?
    ensures var p := DoWork(cfg, codec, req, params).value.params;
            req.shouldStore == Some(false) ==> "store" in p && p["store"] == "0"
    ensures req.shouldStore != Some(false) ==>
              SameEntry(DoWork(cfg, codec, req, params).value.params, params, "store")
  {
  }

  /** A message that serializes does not rescue metadata that does not: the
      request fails with the metadata serializer's reason, whatever the
      configuration and the other fields. */
  lemma DoWorkMetaFailure(cfg: Configuration, codec: Codec, req: PublishRequest, params: map<string, string>)
    requires ValidateParams(req)
    requires codec.serialize(req.message.value).Success?
    requires req.meta.Some? && codec.serialize(req.meta.value).Failure?
    ensures DoWork(cfg, codec, req, params) == Failure(InvalidArguments(codec.serialize(req.meta.value).error))
  {
  }

  /** With a cipher key, what goes on the wire is derived from the cipher text
      alone, stripped of every line feed: the POST body is that text, the GET
      path the URL encoding of that text in quotes. */
  lemma DoWorkEncryptedPayload(cfg: Configuration, codec: Codec, req: PublishRequest, params: map<string, string>)
    requires ValidateParams(req)
    requires cfg.cipherKey.Some?
    requires DoWork(cfg, codec, req, params).Success?
    ensures var json := codec.serialize(req.message.value).value;
            var t := StripNewlines(codec.encrypt(json, cfg.cipherKey.value));
            var shape := DoWork(cfg, codec, req, params).value.shape;
            && NewlineFree(t)
            && (shape.Post? ==> shape.body == CipherText(t))
            && (shape.Get? ==> shape.path == codec.urlEncode("\"" + t + "\""))
  {
  }

  /** Without a cipher key, POST sends the original object, not its serialized
      text, and GET sends the URL-encoded serialized text, unquoted. */
  lemma DoWorkPlainPayload(cfg: Configuration, codec: Codec, req: PublishRequest, params: map<string, string>)
    requires ValidateParams(req)
    requires cfg.cipherKey.None?
    requires DoWork(cfg, codec, req, params).Success?
    ensures var shape := DoWork(cfg, codec, req, params).value.shape;
            && (shape.Post? ==> shape.body == Message(req.message.value))
            && (shape.Get? ==> shape.path == codec.urlEncode(codec.serialize(req.message.value).value))
  {
  }

  /** The parameter map does not depend on how the payload travels: switching
      POST on or off, or configuring a different cipher key, leaves it unchanged. */
  lemma ParamsIndependentOfShape(
    cfg: Configuration, codec: Codec, req: PublishRequest, params: map<string, string>,
    usePost: Option<bool>, cipherKey: Option<string>)
    requires ValidateParams(req)
    requires DoWork(cfg, codec, req, params).Success?
    ensures var other := DoWork(cfg.(cipherKey := cipherKey), codec, req.(usePost := usePost), params);
            other.Success? && other.value.params == DoWork(cfg, codec, req, params).value.params
  {
  }

  /** With a cipher key, the POST body and the GET path of the same request are
      built from one and the same newline-free cipher text. */
  lemma PostAndGetCarrySameCipherText(cfg: Configuration, codec: Codec, req: PublishRequest, params: map<string, string>)
    requires ValidateParams(req)
    requires cfg.cipherKey.Some?
    requires DoWork(cfg, codec, req, params).Success?
    ensures var post := DoWork(cfg, codec, req.(usePost := Some(true)), params);
            var get := DoWork(cfg, codec, req.(usePost := None), params);
            && post.Success? && get.Success?
            && post.value.shape.Post? && post.value.shape.body.CipherText?
            && NewlineFree(post.value.shape.body.text)
            && get.value.shape == Get(codec.urlEncode(Quote(post.value.shape.body.text)))
  {
  }

  /** Under a cipher key the call reveals nothing of the message beyond its
      cipher text: two messages whose serialized forms encrypt alike (up to line
      feeds) produce the same call. */
  lemma CallDependsOnlyOnCipherText(
    cfg: Configuration, codec: Codec, req: PublishRequest, params: map<string, string>, other: Value)
    requires ValidateParams(req)
    requires cfg.cipherKey.Some?
    requires codec.serialize(req.message.value).Success? && codec.serialize(other).Success?
    requires StripNewlines(codec.encrypt(codec.serialize(req.message.value).value, cfg.cipherKey.value))
          == StripNewlines(codec.encrypt(codec.serialize(other).value, cfg.cipherKey.value))
    ensures DoWork(cfg, codec, req.(message := Some(other)), params) == DoWork(cfg, codec, req, params)
  {
  }

  /** A request without a message, or without a non-empty channel, is refused
      before anything is serialized: no call comes out, whatever the codec. */
  lemma InvalidRequestNeverDispatched(cfg: Configuration, codec: Codec, req: PublishRequest, params: map<string, string>)
    requires req.message.None? || req.channel.None? || req.channel == Some("")
    ensures Prepare(cfg, codec, req, params).Failure?
    ensures Prepare(cfg, codec, req, params).error.InvalidArguments?
  {
  }

  /** The time token the broker prints in the third place is the one the
      endpoint returns, for every value of a Java `long`, whatever follows. */
  lemma TimetokenRoundTrip(status: string, description: string, timetoken: int, rest: seq<string>)
    requires InLongRange(timetoken)
    ensures CreateResponse(Some([status, description, LongToString(timetoken)] + rest)) == Success(timetoken)
  {
    ParseLongRoundTrip(timetoken);
    assert ([status, description, LongToString(timetoken)] + rest)[2] == LongToString(timetoken);
  }

  /** An acknowledgement with fewer than three elements yields no time token. */
  lemma ShortResponseRejected(items: seq<string>)
    requires |items| < 3
    ensures CreateResponse(Some(items)).Failure?
    ensures CreateResponse(Some(items)).error.MalformedResponse?
  {
  }
}

=== FILE: wrappers.dfy ===
/** Failure-compatible wrappers: `Option` stands for a Java reference that may be
    null, `Result` for a computation that may throw. Both work with `:-`. */
module Wrappers {

  datatype Option<+T> = None | Some(value: T) {

    predicate IsFailure() {
      None?
    }

    function PropagateFailure<U>(): Option<U>
      requires None?
    {
      None
    }

    function Extract(): T
      requires Some?
    {
      value
    }
  }

  datatype Result<+R, +E> = Success(value: R) | Failure(error: E) {

    predicate IsFailure() {
      Failure?
    }

    function PropagateFailure<U>(): Result<U, E>
      requires Failure?
    {
      Failure(error)
    }

    function Extract(): R
      requires Success?
    {
      value
    }

    /** Keeps a success, translates a failure with `f`. */
    function MapFailure<E'>(f: E -> E'): Result<R, E'>
    {
      match this
      case Success(v) => Success(v)
      case Failure(e) => Failure(f(e))
    }
  }
}
